=== FILE: README.md ===
# RunFrames: a verified model of a volumetric-video frame scheduler

`RunFrames` is a Unity component that plays captured "takes": image sequences recorded at a
known frame rate, each with an optional audio clip. At start-up it loads every frame of every
take into memory, one texture array per take. On each engine tick (`Update`) it:

- works out from elapsed wall-clock time which frame is due;
- puts that frame on the mesh, clamped to the take's last frame;
- at the end of a take (or when the A key is pressed), cues the next take, loops back to the
  first or freezes;
- otherwise compares the video with the audio position at fixed sample checkpoints, and jumps
  the video forward when it has fallen behind.

The model follows the component file by file:

| file | module | contents |
|---|---|---|
| `frame_names.dfy` | `FrameNames` | resource names of frames: the prefix default and the five-digit zero padding. The source decides the padding with `Mathf.Log10` thresholds; here they are the integer tests `n < 10^k`. |
| `takes.dfy` | `Takes` | the take record, the asset store as a set of loadable names, and the exact contents of a take's frame cache. |
| `timing.dfy` | `Timing` | the C# `(int)` cast, the clock mapping elapsed time to a frame index, the clock rebase of the drift correction, and the sample offset where a take's audio starts. Floats are exact reals. |
| `playback.dfy` | `Playback` | the session fields as a value, with one function per block of `Update` and `LoadSequence`, and the lemmas stating what each block does and that the session invariant is kept. |
| `playback_properties.dfy` | `PlaybackProperties` | properties of runs of ticks (invariant along any run, the loop cycle, the monotone checkpoint counter) and four concrete playback scenarios. |
| `run_frames.dfy` | `Player` | the class `RunFrames` with the source's fields. `LoadImages` fills a fresh `array` in a loop. `LoadSequence`, `Start` and `Update` change the fields in place, and each is proved to do exactly what the matching function of `Playback` says. |

`Update` is one method in the source. Here its three blocks are separate methods that it calls
in the source's order:
- the restart at frame 0 (`RestartAtFirstFrame`);
- the frame choice (`ShowClockFrame`);
- either the end of take (`FinishTake`, with `CueNextTake`) or the synchroniser
  (`SyncToAudio`).

The early `return` of the end-of-take branch becomes the `else` that guards the synchroniser.

Unity's services become parameters or fields:
- `Time.time` becomes the parameter `now`.
- `Input.GetKeyDown(KeyCode.A)` becomes `keyA`. Both reads of it in one tick see the same key
  state, so one parameter serves both.
- `videoSound.timeSamples` becomes `timeSamples`.
- `videoSound != null` becomes the constant `hasAudioSource`.
- `Resources.Load` becomes membership in the set `resources` of loadable names.
- The texture last put on the mesh is recorded in `shownTexture`.
- The renderer's enabled flag is recorded in `rendererEnabled`.
- What the component does to the audio source is recorded in `clip`, `seekTarget` and
  `audioRestarts`.

Behaviour worth knowing:

- `LoadImages`' loop runs from `startIndex - 1` to `numberOfFrames + startIndex - 1`
  inclusive. So it loads `numberOfFrames + 1` frames, numbered `startIndex` up to
  `startIndex + numberOfFrames`, into slots `0 .. numberOfFrames`. Only the last of the
  `numberOfFrames + 2` slots stays null. The array has two slack slots, but the loop also
  writes slot `numberOfFrames`.
  Playback never reads slot `numberOfFrames` (the frame index is clamped to
  `numberOfFrames - 1`), so the extra load costs memory only.
- The end-of-take branch assigns `_playMesh` directly, not through the `playMesh` property.
  So a take that ends without continuous play stops advancing, but its mesh stays visible.
- With looping off and continuous play on, a last take that ends because its clock reached
  the last frame stays frozen there: every later tick reads the clock past that frame, ends
  the take again and steps `sequenceIndex` one further past the end of the list.
  `Playback.Inv` allows this state. A one-frame last take is the exception: its frozen frame
  number `numberOfFrames - 1` is 0, so every later tick is a frame-0 tick. The tick moves the
  clock origin to now and, with an audio source, stops, seeks and restarts the clip and resets
  the checkpoint counter to 1. It then shows frame 0, ends the take again and steps
  `sequenceIndex`. A last take ended early by the A key behaves differently.
  The frame number becomes `numberOfFrames - 1`, not 0, so the clock origin is not reset. The
  following ticks show the clock's frame of that take again, and `sequenceIndex` stays one
  past the end until the clock reaches the last frame or the key is pressed again
  (`PlaybackProperties.ScenarioKeyEndsLastTake`).
- On a tick that restarts the audio (frame 0 with an audio source), the synchroniser reads the
  position just seeked to. `Playback.AudioPosition` says so.
- The code relies on these without checking them:
  - every take has at least one frame;
  - every take has a positive frame rate;
  - `frameCompensation` is non-negative;
  - `Time.time` does not run backwards, so the clock origin never lies in the future.

  `Playback.WellFormed` and the `timeAtStart <= now` precondition state them.

## Model

| member | source | states |
|---|---|---|
| FrameNames.DigitsAreDigits | Example_Unity_Project/Assets/RunFrames.cs:100 | appending the frame number prints at least one character, all decimal digits |
| FrameNames.ValueOfDigits | Example_Unity_Project/Assets/RunFrames.cs:100 | the printed digits of a non-negative number read back as that number |
| FrameNames.DigitsLength | Example_Unity_Project/Assets/RunFrames.cs:86-96 | the Log10 thresholds as integer tests: a number prints in at most k digits exactly when it is below 10^k |
| FrameNames.PaddingFillsToFive | Example_Unity_Project/Assets/RunFrames.cs:85-97 | for 0 to 99999, the zeros prepended are exactly those that bring the number to five characters |
| FrameNames.PadIndexFiveDigits | Example_Unity_Project/Assets/RunFrames.cs:85-100 | for 0 to 99999, the index string has exactly five characters, all digits, and reads back as the frame number |
| FrameNames.PadIndexOverflow | Example_Unity_Project/Assets/RunFrames.cs:96-100 | from 100000 up, no padding is added and the index is longer than five characters |
| FrameNames.EffectivePrefix | Example_Unity_Project/Assets/RunFrames.cs:74-77 | the prefix used is never empty: an empty prefix becomes "save.", any other is kept |
| FrameNames.FrameNameInjective | Example_Unity_Project/Assets/RunFrames.cs:103 | within one folder and prefix, distinct frame numbers in the five-digit range name distinct resources |
| Takes.CacheLayout | Example_Unity_Project/Assets/RunFrames.cs:80-106 | a take's cache has numberOfFrames + 2 slots; slot j holds the resource named by folder, effective prefix and a five-digit index reading startIndex + j; distinct slots name distinct resources; the last slot is null |
| Timing.Trunc | Example_Unity_Project/Assets/RunFrames.cs:164 | the (int) cast truncates toward zero: below a non-negative value by less than one, above a negative one by less than one |
| Timing.FrameAt | Example_Unity_Project/Assets/RunFrames.cs:163-164 | for a non-negative rate and an origin not in the future, the frame index is the non-negative whole number of frames elapsed |
| Timing.FrameAtMonotone | Example_Unity_Project/Assets/RunFrames.cs:163-164 | for a fixed origin, the frame index never decreases as time goes forward |
| Timing.RebasedClockAgrees | Example_Unity_Project/Assets/RunFrames.cs:206 | rebasing the origin by f / frameRate makes the clock read exactly f frames more, at every later time |
| Timing.AudioStartExact | Example_Unity_Project/Assets/RunFrames.cs:116 | for startIndex >= 1, a positive frame rate and a non-negative sample frequency, the audio start sample is the non-negative integer quotient ((startIndex - 1) * soundSampleFrequency) / frameRate |
| Playback.LoadTakeLoads | Example_Unity_Project/Assets/RunFrames.cs:111-125 | loading take i sets sequenceIndex, frame count, frame rate, audio start and frame 0 from take i; sets the clip only when an audio source and a clip exist; leaves the clock, counter, flags and audio player alone; keeps the session invariant |
| Playback.RestartResets | Example_Unity_Project/Assets/RunFrames.cs:148-160 | on frame 0 the clock origin becomes now; with audio, the clip is seeked to the audio start, restarted and the counter reset to 1; on other frames nothing changes; the invariant is kept |
| Playback.ShowFrameClamps | Example_Unity_Project/Assets/RunFrames.cs:163-174 | the frame shown lies in [0, numberOfFrames); it is the clock's frame, or the last frame when the clock is past it; the frame number becomes one past it; nothing else changes |
| Playback.SyncCheckCorrects | Example_Unity_Project/Assets/RunFrames.cs:199-213 | the counter moves on by one exactly when the checkpoint is due; frame or clock change only when due and behind; then the frame becomes the forced index, or 0 past the end, is 0 or strictly ahead, and the rebased clock reads the forced index now; invariant kept, origin not in the future |
| Playback.ClockReadsForcedIndex | Example_Unity_Project/Assets/RunFrames.cs:205-206 | at the instant of the correction, the rebased clock reads exactly the forced frame index |
| Playback.EndOfTakeAdvances | Example_Unity_Project/Assets/RunFrames.cs:177-196 | the end of take steps sequenceIndex; loads the take it names (mod the count) at frame 0, with its frame count, frame rate, audio start sample and (with an audio source and a clip) its clip, when one remains or looping is on; otherwise freezes on the last frame; wraps from the last take to 0; playing continues only when continuous; clock, counter, seek target and restart count untouched; invariant kept |
| Playback.EndOfTakeIgnoresFrame | Example_Unity_Project/Assets/RunFrames.cs:179 | the end-of-take branch overwrites the frame number before reading it, so its outcome does not depend on it |
| Playback.Tick | Example_Unity_Project/Assets/RunFrames.cs:144-215 | a tick keeps the session invariant and never moves the clock origin into the future |
| Playback.TickCases | Example_Unity_Project/Assets/RunFrames.cs:144-215 | a paused tick without the key changes nothing; a running tick shows a frame in [0, N-1]; the end of take runs exactly when the clock reaches N-1 or the key is pressed and shows frame N-1, otherwise the clock's frame is shown and the synchroniser runs; the counter is reset to 1 on an audio restart and moves on by at most one |
| PlaybackProperties.Play | Example_Unity_Project/Assets/RunFrames.cs:144-215 | for a nondecreasing clock, any sequence of ticks is defined at every step and keeps the invariant throughout |
| PlaybackProperties.LoopPrefix | Example_Unity_Project/Assets/RunFrames.cs:184-188 | with looping on, n <= count consecutive ends of take from take a land on take (a + n) mod count |
| PlaybackProperties.LoopCycle | Example_Unity_Project/Assets/RunFrames.cs:184-188 | with looping on, sequenceIndex stays in [0, count) and returns to its start after exactly count ends of take, not before |
| PlaybackProperties.CheckpointsOnlyAdvance | Example_Unity_Project/Assets/RunFrames.cs:199-213 | between audio restarts, the checkpoint counter never decreases and moves on by at most one per tick, so by at most k over k ticks |
| PlaybackProperties.RestartTick | Example_Unity_Project/Assets/RunFrames.cs:148-160 | a tick from frame 0 ends the take, or shows frame 0, sets frame 1 and moves the origin to now; with audio it seeks to the take's audio start, restarts the clip and leaves the counter at 1 |
| PlaybackProperties.ScenarioSingleTake | Example_Unity_Project/Assets/RunFrames.cs:144-215 | ten frames at 30 fps: frames 0 and 6 are shown at 0 s and 0.2 s; at 0.4 s frame 9 is shown, the take ends, and play stops past the list |
| PlaybackProperties.ScenarioPauseBetweenTakes | Example_Unity_Project/Assets/RunFrames.cs:177-196 | without looping or continuous play, the end of take 0 loads take 1 at frame 0 and pauses; the next tick without the key changes nothing |
| PlaybackProperties.ScenarioDriftCorrection | Example_Unity_Project/Assets/RunFrames.cs:199-213 | video on frame 5 with the audio past the first checkpoint jumps to frame 31 and moves the counter to 2; the same audio position fires nothing more |
| PlaybackProperties.ScenarioKeyEndsLastTake | Example_Unity_Project/Assets/RunFrames.cs:144-196 | with continuous play and no looping, the key ends the last take early on frame 3: frame 9 is shown and sequenceIndex moves past the list; the next tick, without the key, shows the clock's frame 4 and does not end the take again |
| Player.RunFrames.constructor | Example_Unity_Project/Assets/RunFrames.cs:25-67 | the field initialisers: playing and visible, no caches, take 0, frame 0, frame rate 30, checkpoint counter 1 |
| Player.RunFrames.SetPlayMesh | Example_Unity_Project/Assets/RunFrames.cs:26-34 | the setter sets both the play flag and the renderer's enabled flag to the value, and keeps the component's invariant |
| Player.RunFrames.LoadImages | Example_Unity_Project/Assets/RunFrames.cs:72-108 | appends one fresh array of numberOfFrames + 2 slots and leaves the earlier arrays in place; slot j up to numberOfFrames holds the load of frame startIndex + j's name; the last slot is null |
| Player.RunFrames.LoadSequence | Example_Unity_Project/Assets/RunFrames.cs:111-125 | the session becomes exactly LoadTake of the old one, and the current frame array is the take's cache array |
| Player.RunFrames.Start | Example_Unity_Project/Assets/RunFrames.cs:127-142 | with no takes nothing changes; otherwise every take's cache is filled with fresh arrays, take 0 is loaded, and the component invariant holds |
| Player.RunFrames.Update | Example_Unity_Project/Assets/RunFrames.cs:144-215 | the new session is exactly Tick's; the texture left on the mesh is the presented slot of the cache of the take that was current (unchanged on a paused tick); the component invariant is kept |
| Player.RunFrames.RestartAtFirstFrame | Example_Unity_Project/Assets/RunFrames.cs:148-160 | the session becomes Restart of the old one; the audio position returned is the one the synchroniser reads |
| Player.RunFrames.ShowClockFrame | Example_Unity_Project/Assets/RunFrames.cs:162-174 | the session becomes ShowFrame of the old one, and the texture shown is the slot just before the new frame number |
| Player.RunFrames.FinishTake | Example_Unity_Project/Assets/RunFrames.cs:177-196 | the session becomes EndOfTake of the old one, and the texture shown is the old take's last frame |
| Player.RunFrames.CueNextTake | Example_Unity_Project/Assets/RunFrames.cs:179-190 | the session becomes CueNext of the old one, and the texture shown is the old take's last frame |
| Player.RunFrames.SyncToAudio | Example_Unity_Project/Assets/RunFrames.cs:199-213 | the session becomes SyncCheck of the old one at the given audio position; the component invariant is kept |

## Left out

- Rendering: `renderer.material.SetTexture` is reduced to the texture it leaves set. The end-of-take tick sets two textures, and only the second one is recorded.
- Asset loading: `Resources.Load<Texture2D>` is a lookup in a fixed set of loadable names. Textures carry their resource name and no pixel data.
- Audio: `Stop`, `Play` and the `timeSamples` setter are reduced to the seek target and a restart counter. The audio clip is an opaque number. Playback of the clip between ticks is the `timeSamples` parameter.
- `Debug.Log` for frame numbers of six or more digits has no effect in the model.
- Floating point: times and the audio start are exact reals, and `Mathf.Log10` is replaced by exact integer thresholds. A float computation can round differently at a frame or threshold boundary.
- Inspector edits and other scripts: the take list and the audio settings are constants. `loopSequence` and `continuousPlay` are fields that another script may set between ticks, but no method of the component changes them. Changes to the list after `Start` are not modelled.
- Outside writes to `sequenceIndex`: the field is public (line 59), and the sequencer reads it at lines 184-187, but the model keeps it equal to the loaded take or frozen past the end (`Playback.Inv`). `Update` requires that through `Valid()`. In C#, another script writing j makes the next end of take load take j + 1 (modulo the count when looping), so takes are skipped or repeated. A negative value makes the `%` of line 187 negative, and `sequences[...]` in `LoadSequence` throws. Neither is modelled.
- 32-bit integers: C# `int` arithmetic wraps, and the model's integers are unbounded. The wrap-prone expressions are the checkpoint products `nextSampleSync * sampleSyncFrequency` and `nextSampleSync * sampleSyncFrames` (lines 199, 202, 205), the sum `videoSoundStartIndex + …` (line 199), and `sequenceIndex += 1` (line 184), which repeats every tick past the last take under continuous play. The `(int)` casts at lines 116 and 164 give an unspecified value for a float outside the `int` range, while `Timing.Trunc` is exact for every real. None of these limits is reached in a run of realistic length.
- The `[System.Serializable]` attribute and Unity's inspector plumbing for the take struct.
- `Player.RunFrames.LoadImages`: requires `sequenceToRead` to be the index of the array it appends and `numberOfFrames + 2 >= 0`. `Start` always calls it that way. With an index of an earlier take's array, line 106 writes the frames into that array instead (throwing only if a slot index overruns it). With a negative index, an index past the end of the list, or a negative array size, C# throws. Neither path is modelled.
- `Player.RunFrames.Update`: requires the component invariant (`Playback.WellFormed` takes, a take loaded by `Start`) and a clock origin not later than `now`. The excluded ticks do this in C#:
  - A tick before `Start`, or after a `Start` with no takes (line 131 skips everything), dereferences the null `currFrameArray`.
  - A take of no frames indexes `currFrameArray[-1]` (line 170).
  - A negative frame rate makes the clock read a negative frame once any time has elapsed, and indexes a negative slot.
  - A zero frame rate never advances: `(int)(timeDiff * 0)` is 0, so slot 0 is shown on every tick, and the take ends only on the key (or at once, for a one-frame take). Both divisions by the rate (lines 116 and 206) are float divisions and give an infinity or NaN, not an exception. With an audio source, a drift correction sets the clock origin to minus infinity. The next tick then casts NaN to `int`, which gives an unspecified value.
  - None of these paths is modelled.
- `Player.RunFrames.Start`: requires `frameArrays` empty, as the component is created. A second call to `Start` is not modelled.

=== FILE: frame_names.dfy ===
/** Resource names of captured frames: folder, prefix and the zero-padded frame number. */
module FrameNames {

  /** The decimal digit character for d. */
  function DigitChar(d: nat): (c: char)
    requires d < 10
    ensures '0' <= c <= '9' && c as int - '0' as int == d
  {
    ('0' as int + d) as char
  }

  predicate IsDigits(s: string)
  {
    forall i :: 0 <= i < |s| ==> '0' <= s[i] <= '9'
  }

  /** The decimal digits of n, most significant first, without leading zeros:
      what int.ToString() prints for a non-negative number. */
  function Digits(n: nat): string
  {
    if n < 10 then [DigitChar(n)] else Digits(n / 10) + [DigitChar(n % 10)]
  }

  /** Digits prints at least one character, and only decimal digits. */
  lemma {:induction false} DigitsAreDigits(n: nat)
    ensures 1 <= |Digits(n)| && IsDigits(Digits(n))
  {
    if n >= 10 {
      DigitsAreDigits(n / 10);
    }
  }

  /** The number a string of decimal digits denotes; leading zeros are allowed. */
  function Value(s: string): nat
    requires IsDigits(s)
  {
    if s == [] then 0 else Value(s[..|s| - 1]) * 10 + (s[|s| - 1] as int - '0' as int)
  }

  function Zeros(k: nat): (z: string)
    ensures |z| == k && IsDigits(z)
  {
    seq(k, _ => '0')
  }

  function Pow10(k: nat): (p: nat)
    ensures p >= 1
  {
    if k == 0 then 1 else 10 * Pow10(k - 1)
  }

  /** What int.ToString() prints: a minus sign for negative numbers, then the digits. */
  function DecimalString(n: int): string
  {
    if n < 0 then "-" + Digits(-n) else Digits(n)
  }

  /** The zeros prepended to frame number n (RunFrames.cs lines 85-99). The float test
      Log10(n) < k is, for n >= 1, the test n < 10^k. Log10(0) is negative infinity and
      passes the first test; Log10 of a negative number is NaN and passes none, so a
      negative number gets no padding. Numbers of six or more digits get none either
      (the source only logs a warning for them). */
  function Padding(n: int): string
  {
    if n < 0 then ""
    else if n < 10 then "0000"
    else if n < 100 then "000"
    else if n < 1000 then "00"
    else if n < 10000 then "0"
    else ""
  }

  /** The index part of a frame's resource name (RunFrames.cs lines 85-100). */
  function PadIndex(n: int): string
  {
    Padding(n) + DecimalString(n)
  }

  /** The prefix LoadImages uses: an empty prefix is replaced by "save.". */
  function EffectivePrefix(framePrefix: string): (p: string)
    ensures p != ""
    ensures framePrefix == "" ==> p == "save."
    ensures framePrefix != "" ==> p == framePrefix
  {
    if framePrefix == "" then "save." else framePrefix
  }

  /** The resource name of frame number n of a take (RunFrames.cs line 103). */
  function FrameName(folderName: string, framePrefix: string, n: int): string
  {
    folderName + EffectivePrefix(framePrefix) + PadIndex(n)
  }

  /** Value reads back what Digits prints. */
  lemma {:induction false} ValueOfDigits(n: nat)
    ensures IsDigits(Digits(n)) && Value(Digits(n)) == n
  {
    DigitsAreDigits(n);
    if n >= 10 {
      ValueOfDigits(n / 10);
      var s := Digits(n / 10) + [DigitChar(n % 10)];
      assert s[..|s| - 1] == Digits(n / 10);
    }
  }

  lemma {:induction false} ValueOfZeros(k: nat)
    ensures Value(Zeros(k)) == 0
  {
    if k > 0 {
      assert Zeros(k)[..k - 1] == Zeros(k - 1);
      ValueOfZeros(k - 1);
    }
  }

  /** Leading zeros do not change the number a digit string denotes. */
  lemma {:induction false} ValueIgnoresLeadingZeros(k: nat, s: string)
    requires IsDigits(s)
    ensures IsDigits(Zeros(k) + s) && Value(Zeros(k) + s) == Value(s)
  {
    var t := Zeros(k) + s;
    if s == [] {
      assert t == Zeros(k);
      ValueOfZeros(k);
    } else {
      ValueIgnoresLeadingZeros(k, s[..|s| - 1]);
      assert t[..|t| - 1] == Zeros(k) + s[..|s| - 1];
      assert t[|t| - 1] == s[|s| - 1];
    }
  }

  /** Digits(n) has at most k characters exactly when n < 10^k: the integer form of the
      Log10 thresholds. */
  lemma {:induction false} DigitsLength(n: nat, k: nat)
    requires k >= 1
    ensures |Digits(n)| <= k <==> n < Pow10(k)
  {
    assert Pow10(k) == 10 * Pow10(k - 1);
    if n >= 10 {
      assert |Digits(n)| == |Digits(n / 10)| + 1;
      if k >= 2 {
        DigitsLength(n / 10, k - 1);
        assert n / 10 < Pow10(k - 1) <==> n < 10 * Pow10(k - 1);
      } else {
        DigitsAreDigits(n / 10);
      }
    }
  }

  /** Every frame number from 0 to 99999 gets an index of exactly five decimal digits
      that denotes the frame number. */
  lemma PadIndexFiveDigits(n: int)
    requires 0 <= n < 100000
    ensures |PadIndex(n)| == 5 && IsDigits(PadIndex(n)) && Value(PadIndex(n)) == n
  {
    var d := Digits(n);
    DigitsAreDigits(n);
    PaddingFillsToFive(n);
    ValueIgnoresLeadingZeros(5 - |d|, d);
    ValueOfDigits(n);
  }

  /** The padding is exactly the zeros that bring the digits of n to five characters. */
  lemma PaddingFillsToFive(n: int)
    requires 0 <= n < 100000
    ensures |Digits(n)| <= 5 && Padding(n) == Zeros(5 - |Digits(n)|)
  {
    assert Pow10(1) == 10 && Pow10(2) == 100 && Pow10(3) == 1000;
    assert Pow10(4) == 10000 && Pow10(5) == 100000;
    DigitsLength(n, 5);
    if n < 10 {
      DigitsLength(n, 1);
      assert Padding(n) == Zeros(4);
    } else if n < 100 {
      DigitsLength(n, 1);
      DigitsLength(n, 2);
      assert Padding(n) == Zeros(3);
    } else if n < 1000 {
      DigitsLength(n, 2);
      DigitsLength(n, 3);
      assert Padding(n) == Zeros(2);
    } else if n < 10000 {
      DigitsLength(n, 3);
      DigitsLength(n, 4);
      assert Padding(n) == Zeros(1);
    } else {
      DigitsLength(n, 4);
      assert Padding(n) == Zeros(0);
    }
  }

  /** A frame number of six or more digits is written unpadded, so its index is longer
      than five characters. */
  lemma PadIndexOverflow(n: int)
    requires n >= 100000
    ensures PadIndex(n) == Digits(n) && |PadIndex(n)| > 5
  {
    assert Pow10(5) == 100000;
    DigitsLength(n, 5);
  }

  /** Distinct frame numbers in the five-digit range get distinct indices, hence distinct
      resource names within one folder and prefix. */
  lemma FrameNameInjective(folderName: string, framePrefix: string, m: int, n: int)
    requires 0 <= m < 100000 && 0 <= n < 100000
    requires FrameName(folderName, framePrefix, m) == FrameName(folderName, framePrefix, n)
    ensures m == n
  {
    var head := folderName + EffectivePrefix(framePrefix);
    PadIndexFiveDigits(m);
    PadIndexFiveDigits(n);
    assert PadIndex(m) == FrameName(folderName, framePrefix, m)[|head|..];
    assert PadIndex(n) == FrameName(folderName, framePrefix, n)[|head|..];
  }
}

=== FILE: playback.dfy ===
/** The playback session of RunFrames as a value, and what one scheduling tick (Update) and
    one take switch (LoadSequence) do to it. The class in run_frames.dfy is proved to change
    its fields exactly as these functions say. */
module Playback {
  import opened Takes
  import opened Timing

  /** The inspector settings the scheduler reads and never changes. */
  datatype Settings = Settings(
    sequences: seq<Take>,
    hasAudioSource: bool,       // an AudioSource is attached (videoSound != null)
    soundSampleFrequency: int,
    sampleSyncFrequency: int,
    sampleSyncFrames: int,
    frameCompensation: int)

  /** The session fields of RunFrames (lines 25, 36-37, 43, 53-67), plus what the scheduler
      leaves on the audio player: the clip set on it, the sample it last seeked to and how
      often it was restarted. take is the take LoadSequence last copied in. */
  datatype Session = Session(
    sequenceIndex: int,
    take: nat,
    frameNum: int,
    numberOfFrames: int,
    frameRate: int,
    timeAtStart: real,
    nextSampleSync: int,
    videoSoundStartIndex: int,
    playMesh: bool,
    loopSequence: bool,
    continuousPlay: bool,
    clip: Option<nat>,
    seekTarget: int,
    audioRestarts: nat)

  /** The outcome of a tick: the new session, the index (into the array of the take that was
      current when the tick began) of the frame last put on the mesh, if any, and whether the
      end-of-take branch ran. */
  datatype Step = Step(after: Session, presented: Option<int>, ended: bool)

  /** What the scheduler silently relies on for each take. */
  predicate ValidTake(t: Take)
  {
    t.numberOfFrames >= 1 && t.frameRate > 0
  }

  predicate WellFormed(cfg: Settings)
  {
    (forall i :: 0 <= i < |cfg.sequences| ==> ValidTake(cfg.sequences[i])) &&
    cfg.frameCompensation >= 0
  }

  /** The session holds take i's frame count and frame rate. */
  predicate TakeLoaded(cfg: Settings, s: Session, i: int)
    requires 0 <= i < |cfg.sequences|
  {
    s.numberOfFrames == cfg.sequences[i].numberOfFrames && s.frameRate == cfg.sequences[i].frameRate
  }

  /** The session invariant every tick keeps. sequenceIndex names the loaded take, except after
      the last take has finished without looping, when it runs past the end of the list. The
      frame number never exceeds numberOfFrames, which serves as the past-the-end value. */
  predicate Inv(cfg: Settings, s: Session)
  {
    WellFormed(cfg) && s.take < |cfg.sequences| && TakeLoaded(cfg, s, s.take) &&
    (s.sequenceIndex == s.take ||
     (s.take == |cfg.sequences| - 1 && s.sequenceIndex >= |cfg.sequences|)) &&
    0 <= s.frameNum <= s.numberOfFrames &&
    s.nextSampleSync >= 1
  }

  function Min(a: int, b: int): int
  {
    if a <= b then a else b
  }

  /** LoadSequence(index) (lines 111-125). */
  function LoadTake(cfg: Settings, s: Session, index: int): Session
    requires 0 <= index < |cfg.sequences| && cfg.sequences[index].frameRate != 0
  {
    var t := cfg.sequences[index];
    s.(sequenceIndex := index, take := index,
       videoSoundStartIndex := AudioStart(t.startIndex, t.frameRate, cfg.soundSampleFrequency),
       frameRate := t.frameRate, numberOfFrames := t.numberOfFrames,
       clip := if cfg.hasAudioSource && t.audioTrack.Some? then t.audioTrack else s.clip,
       frameNum := 0)
  }

  /** Loading a take copies its metadata into the session, computes where its audio starts,
      sets its clip when both an audio source and a clip exist, rewinds to frame 0 and leaves
      the clock, the checkpoint counter, the play flags and the audio player alone; the
      result satisfies the session invariant. */
  lemma LoadTakeLoads(cfg: Settings, s: Session, index: int)
    requires WellFormed(cfg) && 0 <= index < |cfg.sequences| && s.nextSampleSync >= 1
    ensures var r := LoadTake(cfg, s, index);
      var t := cfg.sequences[index];
      r.sequenceIndex == index && r.take == index && r.frameNum == 0 &&
      r.numberOfFrames == t.numberOfFrames && r.frameRate == t.frameRate &&
      r.videoSoundStartIndex == AudioStart(t.startIndex, t.frameRate, cfg.soundSampleFrequency) &&
      r.clip == (if cfg.hasAudioSource && t.audioTrack.Some? then t.audioTrack else s.clip) &&
      r.timeAtStart == s.timeAtStart && r.nextSampleSync == s.nextSampleSync &&
      r.playMesh == s.playMesh && r.loopSequence == s.loopSequence &&
      r.continuousPlay == s.continuousPlay &&
      r.seekTarget == s.seekTarget && r.audioRestarts == s.audioRestarts &&
      Inv(cfg, r)
  {
    assert ValidTake(cfg.sequences[index]);
  }

  /** Lines 148-160 of Update. */
  function Restart(cfg: Settings, s: Session, now: real): Session
  {
    if s.frameNum != 0 then s
    else if cfg.hasAudioSource then
      s.(timeAtStart := now, seekTarget := s.videoSoundStartIndex,
         audioRestarts := s.audioRestarts + 1, nextSampleSync := 1)
    else s.(timeAtStart := now)
  }

  /** A tick on frame 0 moves the clock origin to now; with an audio source attached it seeks
      the clip to the take's audio start, restarts it and resets the checkpoint counter to 1.
      On any other frame nothing changes. The invariant is kept. */
  lemma RestartResets(cfg: Settings, s: Session, now: real)
    ensures var r := Restart(cfg, s, now);
      r.timeAtStart == (if s.frameNum == 0 then now else s.timeAtStart) &&
      r.nextSampleSync == (if s.frameNum == 0 && cfg.hasAudioSource then 1 else s.nextSampleSync) &&
      r.seekTarget == (if s.frameNum == 0 && cfg.hasAudioSource then s.videoSoundStartIndex
                       else s.seekTarget) &&
      r.audioRestarts == (if s.frameNum == 0 && cfg.hasAudioSource then s.audioRestarts + 1
                          else s.audioRestarts) &&
      r == s.(timeAtStart := r.timeAtStart, nextSampleSync := r.nextSampleSync,
              seekTarget := r.seekTarget, audioRestarts := r.audioRestarts) &&
      (Inv(cfg, s) ==> Inv(cfg, r))
  {
  }

  /** The unclamped frame index the clock reads at now: elapsed time since the origin, which a
      tick on frame 0 first moves to now. */
  function Candidate(s: Session, now: real): int
  {
    FrameAt(if s.frameNum == 0 then now else s.timeAtStart, now, s.frameRate)
  }

  /** Lines 163-172 of Update. */
  function ShowFrame(s: Session, now: real): Session
  {
    s.(frameNum := Min(FrameAt(s.timeAtStart, now, s.frameRate), s.numberOfFrames - 1) + 1)
  }

  /** The frame put on the mesh is the one the clock reads, unless that is past the last frame
      of the take, which is then shown instead; the frame number moves one past it, so it
      stays within [1, numberOfFrames]. */
  lemma ShowFrameClamps(cfg: Settings, s: Session, now: real)
    requires Inv(cfg, s) && s.timeAtStart <= now
    ensures var r := ShowFrame(s, now);
      var clock := FrameAt(s.timeAtStart, now, s.frameRate);
      var shown := r.frameNum - 1;
      0 <= shown < s.numberOfFrames &&
      (shown == clock || (shown == s.numberOfFrames - 1 && clock > shown)) &&
      r == s.(frameNum := r.frameNum) && Inv(cfg, r)
  {
  }

  /** The audio position the synchroniser reads at line 199: the player's position, or, on a
      tick that has just seeked the clip, the seek target. */
  function AudioPosition(cfg: Settings, s: Session, timeSamples: int): int
  {
    if s.frameNum == 0 && cfg.hasAudioSource then s.videoSoundStartIndex else timeSamples
  }

  /** The audio has passed the current checkpoint (line 199). */
  predicate SyncDue(cfg: Settings, s: Session, pos: int)
  {
    s.frameNum != 0 && cfg.hasAudioSource &&
    pos > s.videoSoundStartIndex + s.nextSampleSync * cfg.sampleSyncFrequency
  }

  /** The video is short of where the current checkpoint says it should be (line 202). */
  predicate Behind(cfg: Settings, s: Session)
  {
    s.frameNum + 1 < s.nextSampleSync * cfg.sampleSyncFrames
  }

  /** The frame index a drift correction forces (line 205). */
  function Forced(cfg: Settings, s: Session): int
  {
    s.nextSampleSync * cfg.sampleSyncFrames + cfg.frameCompensation
  }

  /** The audio-video synchroniser (lines 199-213). */
  function SyncCheck(cfg: Settings, s: Session, now: real, pos: int): Session
    requires s.frameRate != 0
  {
    if SyncDue(cfg, s, pos) then
      var corrected :=
        if Behind(cfg, s) then
          var f := Forced(cfg, s);
          s.(frameNum := if f > s.numberOfFrames then 0 else f,
             timeAtStart := Rebased(now, f, s.frameRate))
        else s;
      corrected.(nextSampleSync := s.nextSampleSync + 1)
    else s
  }

  /** The synchroniser's contract. The checkpoint counter moves on by exactly one whenever the
      audio has passed the checkpoint, whether or not the video is corrected, and never
      otherwise. Only a due checkpoint with the video behind changes the frame number or the
      clock origin: the frame number jumps forward to the forced index, or falls back to frame
      0 when that index is past the end of the take, and the clock origin moves back so that the
      clock reads the forced index at now. The invariant is kept and the origin stays in the
      past. */
  lemma SyncCheckCorrects(cfg: Settings, s: Session, now: real, pos: int)
    requires Inv(cfg, s) && s.timeAtStart <= now
    ensures var r := SyncCheck(cfg, s, now, pos);
      var due := SyncDue(cfg, s, pos);
      var fix := due && Behind(cfg, s);
      r.nextSampleSync == (if due then s.nextSampleSync + 1 else s.nextSampleSync) &&
      (r.frameNum != s.frameNum || r.timeAtStart != s.timeAtStart ==> fix) &&
      (fix ==>
        r.frameNum == (if Forced(cfg, s) > s.numberOfFrames then 0 else Forced(cfg, s)) &&
        (r.frameNum == 0 || r.frameNum > s.frameNum + 1) &&
        FrameAt(r.timeAtStart, now, s.frameRate) == Forced(cfg, s)) &&
      r == s.(frameNum := r.frameNum, timeAtStart := r.timeAtStart,
              nextSampleSync := r.nextSampleSync) &&
      Inv(cfg, r) && r.timeAtStart <= now
  {
    if SyncDue(cfg, s, pos) && Behind(cfg, s) {
      var f := Forced(cfg, s);
      var rate := s.frameRate as real;
      assert f > 0;
      assert f as real / rate >= 0.0;
      ClockReadsForcedIndex(now, f, s.frameRate);
    }
  }

  lemma ClockReadsForcedIndex(now: real, f: int, rate: int)
    requires 0 < rate
    ensures FrameAt(Rebased(now, f, rate), now, rate) == f
  {
    var r := rate as real;
    assert (now - (now - f as real / r)) * r == f as real;
  }

  /** The end-of-take branch (lines 177-196). */
  function EndOfTake(cfg: Settings, s: Session): Session
    requires WellFormed(cfg) && |cfg.sequences| > 0
  {
    var cued := CueNext(cfg, s);
    if cued.continuousPlay then cued else cued.(playMesh := false)
  }

  /** Lines 179-190: freeze on the last frame, step sequenceIndex, and load the take it names
      (modulo the number of takes) unless the list has run out and looping is off. */
  function CueNext(cfg: Settings, s: Session): Session
    requires WellFormed(cfg) && |cfg.sequences| > 0
  {
    var frozen := s.(frameNum := s.numberOfFrames - 1, sequenceIndex := s.sequenceIndex + 1);
    if frozen.sequenceIndex < |cfg.sequences| || frozen.loopSequence then
      var next := frozen.sequenceIndex % |cfg.sequences|;
      assert ValidTake(cfg.sequences[next]);
      LoadTake(cfg, frozen, next)
    else frozen
  }

  /** The end of a take shows its last frame and steps sequenceIndex: the take it names is
      loaded at frame 0 with its frame count, frame rate, audio start and clip (wrapping around
      to take 0 when looping), or, past the last take
      without looping, the session stays frozen on the last frame. Play stops unless it is
      continuous. The clock, the checkpoint counter and the audio player are untouched, and the
      invariant is kept. */
  lemma EndOfTakeAdvances(cfg: Settings, s: Session)
    requires Inv(cfg, s)
    ensures var r := EndOfTake(cfg, s);
      var next := s.sequenceIndex + 1;
      var count := |cfg.sequences|;
      (if next < count || s.loopSequence then
         var t := cfg.sequences[next % count];
         r.sequenceIndex == r.take == next % count && TakeLoaded(cfg, r, r.take) && r.frameNum == 0 &&
         r.videoSoundStartIndex == AudioStart(t.startIndex, t.frameRate, cfg.soundSampleFrequency) &&
         r.clip == (if cfg.hasAudioSource && t.audioTrack.Some? then t.audioTrack else s.clip)
       else
         r.sequenceIndex == next && r.take == s.take && r.frameNum == s.numberOfFrames - 1 &&
         r.numberOfFrames == s.numberOfFrames && r.frameRate == s.frameRate &&
         r.videoSoundStartIndex == s.videoSoundStartIndex) &&
      (s.loopSequence && s.sequenceIndex < count ==>
        r.sequenceIndex == if s.sequenceIndex + 1 < count then s.sequenceIndex + 1 else 0) &&
      r.playMesh == (s.playMesh && s.continuousPlay) &&
      r.timeAtStart == s.timeAtStart && r.nextSampleSync == s.nextSampleSync &&
      r.seekTarget == s.seekTarget && r.audioRestarts == s.audioRestarts &&
      r.loopSequence == s.loopSequence && r.continuousPlay == s.continuousPlay &&
      Inv(cfg, r)
  {
    var count := |cfg.sequences|;
    var frozen := s.(frameNum := s.numberOfFrames - 1, sequenceIndex := s.sequenceIndex + 1);
    var cued := CueNext(cfg, s);
    if frozen.sequenceIndex < count || frozen.loopSequence {
      var next := frozen.sequenceIndex % count;
      LoadTakeLoads(cfg, frozen, next);
      assert cued == LoadTake(cfg, frozen, next);
      if s.sequenceIndex < count {
        WrapAround(s.sequenceIndex, count);
      }
    } else {
      assert cued == frozen;
    }
  }

  /** Stepping an index of a list of n elements modulo n wraps from the last to the first. */
  lemma WrapAround(i: int, n: int)
    requires 0 <= i < n
    ensures (i + 1) % n == if i + 1 < n then i + 1 else 0
  {
  }

  /** The end-of-take branch overwrites the frame number before reading it. */
  lemma EndOfTakeIgnoresFrame(cfg: Settings, s: Session, f: int)
    requires WellFormed(cfg) && |cfg.sequences| > 0
    ensures EndOfTake(cfg, s.(frameNum := f)) == EndOfTake(cfg, s)
  {
    assert s.(frameNum := f).(frameNum := s.numberOfFrames - 1, sequenceIndex := s.sequenceIndex + 1)
        == s.(frameNum := s.numberOfFrames - 1, sequenceIndex := s.sequenceIndex + 1);
  }

  /** One scheduling tick, Update() (lines 144-215), at wall-clock time now, with the manual
      advance key pressed or not and the audio player at sample timeSamples. It keeps the
      session invariant and never moves the clock origin into the future. */
  function Tick(cfg: Settings, s: Session, now: real, keyA: bool, timeSamples: int): (r: Step)
    requires Inv(cfg, s) && s.timeAtStart <= now
    ensures Inv(cfg, r.after) && r.after.timeAtStart <= now
  {
    if !(s.playMesh || keyA) then Step(s, None, false)
    else
      var started := Restart(cfg, s, now);
      RestartResets(cfg, s, now);
      var advanced := ShowFrame(started, now);
      ShowFrameClamps(cfg, started, now);
      if advanced.frameNum >= started.numberOfFrames || keyA then
        EndOfTakeAdvances(cfg, started);
        Step(EndOfTake(cfg, started), Some(started.numberOfFrames - 1), true)
      else
        var pos := AudioPosition(cfg, s, timeSamples);
        SyncCheckCorrects(cfg, advanced, now, pos);
        Step(SyncCheck(cfg, advanced, now, pos), Some(advanced.frameNum - 1), false)
  }

  /** What one tick does, case by case. */
  lemma TickCases(cfg: Settings, s: Session, now: real, keyA: bool, timeSamples: int)
    requires Inv(cfg, s) && s.timeAtStart <= now
    ensures var r := Tick(cfg, s, now, keyA, timeSamples);
      r.after.loopSequence == s.loopSequence && r.after.continuousPlay == s.continuousPlay &&
      // a paused tick without the key does nothing
      (!(s.playMesh || keyA) ==> r == Step(s, None, false)) &&
      // every running tick puts a frame of the take on the mesh, never outside [0, N - 1]
      (s.playMesh || keyA ==> r.presented.Some? && 0 <= r.presented.value < s.numberOfFrames) &&
      // the end-of-take branch runs exactly when the clock has reached the last frame or the
      // key is pressed; it shows the last frame
      (r.ended <==> (s.playMesh || keyA) && (Candidate(s, now) >= s.numberOfFrames - 1 || keyA)) &&
      (r.ended ==>
        r.presented == Some(s.numberOfFrames - 1) && r.after == EndOfTake(cfg, Restart(cfg, s, now))) &&
      // otherwise the clock's frame is shown, one past it becomes the frame number, and the
      // synchroniser runs
      ((s.playMesh || keyA) && !r.ended ==>
        r.presented == Some(Candidate(s, now)) &&
        r.after == SyncCheck(cfg, Restart(cfg, s, now).(frameNum := Candidate(s, now) + 1), now,
                             AudioPosition(cfg, s, timeSamples))) &&
      // the checkpoint counter is reset to 1 on a restart with audio, and moves on by at most one
      var base := if (s.playMesh || keyA) && s.frameNum == 0 && cfg.hasAudioSource
                  then 1 else s.nextSampleSync;
      base <= r.after.nextSampleSync <= base + 1
  {
    if s.playMesh || keyA {
      var started := Restart(cfg, s, now);
      assert FrameAt(started.timeAtStart, now, started.frameRate) == Candidate(s, now);
    }
  }
}

=== FILE: playback_properties.dfy ===
/** Properties of runs of scheduling ticks, and four concrete playback scenarios. */
module PlaybackProperties {
  import opened Takes
  import opened Timing
  import opened Playback

  predicate Nondecreasing(nows: seq<real>)
  {
    forall i, j :: 0 <= i <= j < |nows| ==> nows[i] <= nows[j]
  }

  /** trace is the sequence of sessions that ticks at times nows, with keys and audio positions
      samples, go through. */
  predicate Run(cfg: Settings, trace: seq<Session>, nows: seq<real>, keys: seq<bool>, samples: seq<int>)
  {
    |trace| == |nows| + 1 && |keys| == |nows| && |samples| == |nows| &&
    forall k :: 0 <= k < |nows| ==>
      Inv(cfg, trace[k]) && trace[k].timeAtStart <= nows[k] &&
      trace[k + 1] == Tick(cfg, trace[k], nows[k], keys[k], samples[k]).after
  }

  /** The sessions a host loop with a nondecreasing clock drives the scheduler through. Every
      tick's precondition holds along the way: the invariant and the origin not lying in the
      future are kept by each tick. */
  function Play(cfg: Settings, s: Session, nows: seq<real>, keys: seq<bool>, samples: seq<int>): (trace: seq<Session>)
    requires Inv(cfg, s) && Nondecreasing(nows) && |keys| == |nows| && |samples| == |nows|
    requires |nows| > 0 ==> s.timeAtStart <= nows[0]
    ensures |trace| > 0 && trace[0] == s && Run(cfg, trace, nows, keys, samples)
    ensures Inv(cfg, trace[|trace| - 1])
    decreases |nows|
  {
    if nows == [] then [s]
    else
      var next := Tick(cfg, s, nows[0], keys[0], samples[0]).after;
      [s] + Play(cfg, next, nows[1..], keys[1..], samples[1..])
  }

  /** With looping on, each end of take moves to the next take of the list, wrapping from the last
      to the first: n end-of-take ticks from take a land on take (a + n) mod count. */
  lemma {:induction false} LoopPrefix(cfg: Settings, trace: seq<Session>, nows: seq<real>,
                                      keys: seq<bool>, samples: seq<int>, n: nat)
    requires Run(cfg, trace, nows, keys, samples) && |nows| <= |cfg.sequences|
    requires 0 <= trace[0].sequenceIndex < |cfg.sequences| && trace[0].loopSequence
    requires forall k :: 0 <= k < |nows| ==> Tick(cfg, trace[k], nows[k], keys[k], samples[k]).ended
    requires n <= |nows|
    ensures trace[n].loopSequence
    ensures var a := trace[0].sequenceIndex;
      trace[n].sequenceIndex == if a + n < |cfg.sequences| then a + n else a + n - |cfg.sequences|
  {
    if n > 0 {
      LoopPrefix(cfg, trace, nows, keys, samples, n - 1);
      var s, now := trace[n - 1], nows[n - 1];
      TickCases(cfg, s, now, keys[n - 1], samples[n - 1]);
      RestartResets(cfg, s, now);
      EndOfTakeAdvances(cfg, Restart(cfg, s, now));
      assert trace[n] == EndOfTake(cfg, Restart(cfg, s, now));
    }
  }

  /** With looping on, sequenceIndex stays within the list of takes and comes back to where it
      started after exactly as many ends of take as there are takes, not before. */
  lemma LoopCycle(cfg: Settings, trace: seq<Session>, nows: seq<real>, keys: seq<bool>, samples: seq<int>)
    requires Run(cfg, trace, nows, keys, samples) && |nows| == |cfg.sequences|
    requires 0 <= trace[0].sequenceIndex < |cfg.sequences| && trace[0].loopSequence
    requires forall k :: 0 <= k < |nows| ==> Tick(cfg, trace[k], nows[k], keys[k], samples[k]).ended
    ensures forall k :: 0 <= k <= |nows| ==> 0 <= trace[k].sequenceIndex < |cfg.sequences|
    ensures forall k :: 0 < k < |nows| ==> trace[k].sequenceIndex != trace[0].sequenceIndex
    ensures trace[|nows|].sequenceIndex == trace[0].sequenceIndex
  {
    forall n | 0 <= n <= |nows|
      ensures var a := trace[0].sequenceIndex;
        trace[n].sequenceIndex == if a + n < |cfg.sequences| then a + n else a + n - |cfg.sequences|
    {
      LoopPrefix(cfg, trace, nows, keys, samples, n);
    }
  }

  /** Between restarts of the audio, the sync checkpoint counter never goes back and moves on by
      at most one per tick. */
  lemma {:induction false} CheckpointsOnlyAdvance(cfg: Settings, trace: seq<Session>, nows: seq<real>,
                                                  keys: seq<bool>, samples: seq<int>)
    requires Run(cfg, trace, nows, keys, samples)
    requires forall k :: 0 <= k < |nows| ==> trace[k].frameNum != 0 || !cfg.hasAudioSource
    ensures forall k :: 0 <= k < |nows| ==>
      trace[k].nextSampleSync <= trace[k + 1].nextSampleSync <= trace[k].nextSampleSync + 1
    ensures forall k :: 0 <= k <= |nows| ==>
      trace[0].nextSampleSync <= trace[k].nextSampleSync <= trace[0].nextSampleSync + k
  {
    forall k | 0 <= k < |nows|
      ensures trace[k].nextSampleSync <= trace[k + 1].nextSampleSync <= trace[k].nextSampleSync + 1
    {
      TickCases(cfg, trace[k], nows[k], keys[k], samples[k]);
    }
    CheckpointsPrefix(cfg, trace, nows, keys, samples, |nows|);
  }

  lemma {:induction false} CheckpointsPrefix(cfg: Settings, trace: seq<Session>, nows: seq<real>,
                                             keys: seq<bool>, samples: seq<int>, n: nat)
    requires Run(cfg, trace, nows, keys, samples) && n <= |nows|
    requires forall k :: 0 <= k < |nows| ==>
      trace[k].nextSampleSync <= trace[k + 1].nextSampleSync <= trace[k].nextSampleSync + 1
    ensures forall k :: 0 <= k <= n ==>
      trace[0].nextSampleSync <= trace[k].nextSampleSync <= trace[0].nextSampleSync + k
  {
    if n > 0 {
      CheckpointsPrefix(cfg, trace, nows, keys, samples, n - 1);
      assert trace[n - 1].nextSampleSync <= trace[n].nextSampleSync <= trace[n - 1].nextSampleSync + 1;
    }
  }

  /** A tick that starts on frame 0 shows frame 0 and moves the clock origin to now; with audio
      it seeks the clip to the take's audio start, restarts it and resets the checkpoint counter
      to 1, which the synchroniser cannot move on the same tick. */
  lemma RestartTick(cfg: Settings, s: Session, now: real, keyA: bool, timeSamples: int)
    requires Inv(cfg, s) && s.timeAtStart <= now && s.frameNum == 0 && (s.playMesh || keyA)
    requires cfg.sampleSyncFrequency >= 0
    ensures var r := Tick(cfg, s, now, keyA, timeSamples);
      (r.ended || (r.presented == Some(0) && r.after.frameNum == 1 && r.after.timeAtStart == now)) &&
      (cfg.hasAudioSource ==>
        r.after.nextSampleSync == 1 && r.after.seekTarget == s.videoSoundStartIndex &&
        r.after.audioRestarts == s.audioRestarts + 1)
  {
    TickCases(cfg, s, now, keyA, timeSamples);
    assert Candidate(s, now) == 0;
  }

  /** One take of 10 frames at 30 frames per second, no audio, started at 5 s: the first tick
      shows frame 0 and moves the clock origin there; 0.2 s later the clock shows frame 6; at
      0.4 s it would be at frame 12, so the last frame, 9, is shown and the take ends; without
      looping or continuous play the session stops, past the end of the list. */
  lemma ScenarioSingleTake()
    ensures var cfg := Settings([Take("Frames/", "", 1, 10, 30, None)], false, 48000, 48000, 30, 1);
      var s0 := Session(0, 0, 0, 10, 30, 0.0, 1, 0, true, false, false, None, 0, 0);
      Inv(cfg, s0) &&
      var t0 := Tick(cfg, s0, 5.0, false, 0);
      t0.presented == Some(0) && t0.after.timeAtStart == 5.0 && t0.after.frameNum == 1 &&
      var t1 := Tick(cfg, t0.after, 5.2, false, 0);
      t1.presented == Some(6) && !t1.ended && t1.after.frameNum == 7 &&
      var t2 := Tick(cfg, t1.after, 5.4, false, 0);
      t2.ended && t2.presented == Some(9) &&
      t2.after.sequenceIndex == 1 && t2.after.frameNum == 9 && !t2.after.playMesh
  {
    var cfg := Settings([Take("Frames/", "", 1, 10, 30, None)], false, 48000, 48000, 30, 1);
    var s0 := Session(0, 0, 0, 10, 30, 0.0, 1, 0, true, false, false, None, 0, 0);
    assert Inv(cfg, s0);
    var t0 := Tick(cfg, s0, 5.0, false, 0);
    assert FrameAt(5.0, 5.0, 30) == 0;
    var t1 := Tick(cfg, t0.after, 5.2, false, 0);
    assert FrameAt(5.0, 5.2, 30) == 6;
    var t2 := Tick(cfg, t1.after, 5.4, false, 0);
    assert FrameAt(5.0, 5.4, 30) == 12;
  }

  /** Two takes, no looping, no continuous play: the end of take 0 cues take 1 at frame 0 with
      its frame count and rate, and pauses; ticks then do nothing until play resumes or the key
      is pressed. */
  lemma ScenarioPauseBetweenTakes(now: real, later: real)
    requires 1.0 <= now <= later
    ensures var cfg := Settings([Take("A/", "", 1, 10, 30, None), Take("B/", "take.", 1, 20, 25, None)],
                                false, 48000, 48000, 30, 1);
      var s := Session(0, 0, 5, 10, 30, 0.0, 1, 0, true, false, false, None, 0, 0);
      Inv(cfg, s) &&
      var t := Tick(cfg, s, now, false, 0);
      t.ended && t.presented == Some(9) &&
      t.after.sequenceIndex == 1 && t.after.frameNum == 0 && !t.after.playMesh &&
      t.after.numberOfFrames == 20 && t.after.frameRate == 25 &&
      Tick(cfg, t.after, later, false, 0) == Step(t.after, None, false)
  {
    var s := Session(0, 0, 5, 10, 30, 0.0, 1, 0, true, false, false, None, 0, 0);
    assert Candidate(s, now) >= 30;
  }

  /** Audio at sample 96000 with checkpoints every 48000 samples and 30 frames per checkpoint:
      on frame 5 at the first checkpoint the video is behind, so it jumps to frame 30 + 1 and the
      counter moves to 2; the same audio position does not fire the second checkpoint. */
  lemma ScenarioDriftCorrection(now: real)
    ensures var cfg := Settings([Take("A/", "", 1, 100, 30, Some(7))], true, 48000, 48000, 30, 1);
      var s := Session(0, 0, 5, 100, 30, 0.0, 1, 0, true, false, false, Some(7), 0, 1);
      var r := SyncCheck(cfg, s, now, 96000);
      r.frameNum == 31 && r.nextSampleSync == 2 && SyncCheck(cfg, r, now, 96000) == r
  {
  }

  /** One take of 10 frames at 30 frames per second, continuous play, no looping, on frame 3 with
      the clock origin at 0 s. The key at 0.1 s ends the take early: the last frame is shown and
      sequenceIndex runs past the list. The frame number is not 0, so the origin stays, and at
      0.15 s the tick shows the clock's frame 4 of the same take without ending it again. */
  lemma ScenarioKeyEndsLastTake()
    ensures var cfg := Settings([Take("A/", "", 1, 10, 30, None)], false, 48000, 48000, 30, 1);
      var s := Session(0, 0, 3, 10, 30, 0.0, 1, 0, true, false, true, None, 0, 0);
      Inv(cfg, s) &&
      var t0 := Tick(cfg, s, 0.1, true, 0);
      t0.ended && t0.presented == Some(9) &&
      t0.after.sequenceIndex == 1 && t0.after.frameNum == 9 && t0.after.playMesh &&
      var t1 := Tick(cfg, t0.after, 0.15, false, 0);
      !t1.ended && t1.presented == Some(4) && t1.after.sequenceIndex == 1 && t1.after.frameNum == 5
  {
    assert FrameAt(0.0, 0.1, 30) == 3;
    assert FrameAt(0.0, 0.15, 30) == 4;
  }
}

=== FILE: run_frames.dfy ===
/** The RunFrames component (RunFrames.cs): a frame cache filled once at start, and a session
    whose fields every Update tick changes in place. Unity's engine, renderer, asset loader and
    audio source are replaced by parameters and by fields that record what the component
    leaves on them. */
module Player {
  import opened FrameNames
  import opened Takes
  import opened Timing
  import opened Playback

  class RunFrames {
    // inspector settings the component never changes
    const sequences: seq<Take>
    const hasAudioSource: bool          // videoSound != null
    const soundSampleFrequency: int
    const sampleSyncFrequency: int
    const sampleSyncFrames: int
    const frameCompensation: int
    /** The resource names the asset store can load. */
    const resources: set<string>

    // inspector toggles, public fields another script may flip at any time
    var loopSequence: bool
    var continuousPlay: bool

    var playMesh: bool                  // _playMesh
    var rendererEnabled: bool           // gameObject.renderer.enabled

    var videoSoundStartIndex: int
    var numberOfFrames: int
    var frameRate: int
    var frameArrays: seq<array<Texture>>
    var currFrameArray: array?<Texture>
    var sequenceIndex: int
    var frameNum: int
    var timeAtStart: real
    var nextSampleSync: int

    // what the component leaves on the audio source and on the mesh's material
    var clip: Option<nat>
    var seekTarget: int
    var audioRestarts: nat
    var shownTexture: Texture

    /** The take whose metadata and frames LoadSequence last made current. */
    ghost var take: nat

    function Config(): Settings
    {
      Settings(sequences, hasAudioSource, soundSampleFrequency, sampleSyncFrequency,
               sampleSyncFrames, frameCompensation)
    }

    /** The session fields as a value. */
    ghost function State(): Session
      reads this
    {
      Session(sequenceIndex, take, frameNum, numberOfFrames, frameRate, timeAtStart,
              nextSampleSync, videoSoundStartIndex, playMesh, loopSequence, continuousPlay,
              clip, seekTarget, audioRestarts)
    }

    /** The component after Start with at least one take: the session invariant, one cache
        array per take holding what LoadImages puts there, and the current take's array in
        currFrameArray. */
    ghost predicate Valid()
      reads this, frameArrays
    {
      Inv(Config(), State()) && CacheHolds() && currFrameArray == frameArrays[take]
    }

    /** One cache array per take, holding what LoadImages puts there. */
    ghost predicate CacheHolds()
      reads this`frameArrays, frameArrays
    {
      |frameArrays| == |sequences| &&
      forall i :: 0 <= i < |frameArrays| ==>
        sequences[i].numberOfFrames + 2 >= 0 &&
        frameArrays[i][..] == CachedTake(sequences[i], resources)
    }

    /** The component as the engine creates it, with the field initialisers of lines 25-67. */
    constructor (sequences: seq<Take>, loopSequence: bool, continuousPlay: bool,
                 hasAudioSource: bool, soundSampleFrequency: int, sampleSyncFrequency: int,
                 sampleSyncFrames: int, frameCompensation: int, resources: set<string>)
      ensures this.sequences == sequences && this.resources == resources
      ensures this.hasAudioSource == hasAudioSource
      ensures this.soundSampleFrequency == soundSampleFrequency
      ensures this.sampleSyncFrequency == sampleSyncFrequency
      ensures this.sampleSyncFrames == sampleSyncFrames
      ensures this.frameCompensation == frameCompensation
      ensures this.loopSequence == loopSequence && this.continuousPlay == continuousPlay
      ensures playMesh && rendererEnabled
      ensures frameArrays == [] && currFrameArray == null
      ensures sequenceIndex == 0 && frameNum == 0 && frameRate == 30 && nextSampleSync == 1
    {
      this.sequences := sequences;
      this.hasAudioSource := hasAudioSource;
      this.soundSampleFrequency := soundSampleFrequency;
      this.sampleSyncFrequency := sampleSyncFrequency;
      this.sampleSyncFrames := sampleSyncFrames;
      this.frameCompensation := frameCompensation;
      this.resources := resources;
      this.loopSequence := loopSequence;
      this.continuousPlay := continuousPlay;
      playMesh := true;
      rendererEnabled := true;
      videoSoundStartIndex := 0;
      numberOfFrames := 0;
      frameRate := 30;
      frameArrays := [];
      currFrameArray := null;
      sequenceIndex := 0;
      frameNum := 0;
      timeAtStart := 0.0;
      nextSampleSync := 1;
      clip := None;
      seekTarget := 0;
      audioRestarts := 0;
      shownTexture := NoTexture;
      take := 0;
    }

    /** The playMesh property setter (lines 26-34): shows or hides the mesh as well. */
    method SetPlayMesh(value: bool)
      modifies this`playMesh, this`rendererEnabled
      ensures playMesh == value && rendererEnabled == value
      ensures old(Valid()) ==> Valid()
    {
      rendererEnabled := value;
      playMesh := value;
    }

    /** LoadImages (lines 72-108): appends a fresh array of numberOfFrames + 2 slots to
        frameArrays and loads frames startIndex .. startIndex + numberOfFrames into its slots
        0 .. numberOfFrames; the last slot stays null. The source writes the array through
        frameArrays[sequenceToRead], which is the array just appended because Start calls it for
        take i when i arrays exist. */
    method LoadImages(sequenceToRead: int, folderName: string, framePrefix: string,
                      startIndex: int, numberOfFrames: int)
      requires sequenceToRead == |frameArrays|
      requires numberOfFrames + 2 >= 0
      modifies this`frameArrays
      ensures |frameArrays| == |old(frameArrays)| + 1
      ensures frameArrays[..sequenceToRead] == old(frameArrays)
      ensures fresh(frameArrays[sequenceToRead])
      ensures frameArrays[sequenceToRead][..]
              == CacheFill(folderName, framePrefix, startIndex, numberOfFrames, resources)
    {
      var prefix := framePrefix;
      if prefix == "" {
        prefix := "save.";
      }
      var slots := new Texture[numberOfFrames + 2](_ => NoTexture);
      frameArrays := frameArrays + [slots];
      var i := startIndex - 1;
      while i < numberOfFrames + startIndex
        invariant startIndex - 1 <= i
        invariant i <= numberOfFrames + startIndex || numberOfFrames == -2
        invariant frameArrays == old(frameArrays) + [slots]
        invariant prefix == EffectivePrefix(framePrefix)
        invariant forall j :: 0 <= j <= i - startIndex && j < slots.Length ==>
          slots[j] == Load(resources, FrameName(folderName, framePrefix, startIndex + j))
        invariant forall j :: i - startIndex < j < slots.Length ==> slots[j] == NoTexture
      {
        var index := PadIndex(i + 1);
        var frame := Load(resources, folderName + prefix + index);
        assert frame == Load(resources, FrameName(folderName, framePrefix, i + 1));
        assert frameArrays[sequenceToRead] == slots;
        frameArrays[sequenceToRead][i + 1 - startIndex] := frame;
        i := i + 1;
      }
      assert slots[..] == CacheFill(folderName, framePrefix, startIndex, numberOfFrames, resources);
    }

    /** LoadSequence (lines 111-125): makes take index current. */
    method LoadSequence(index: int)
      requires 0 <= index < |sequences| == |frameArrays| && sequences[index].frameRate != 0
      modifies this`sequenceIndex, this`videoSoundStartIndex, this`frameRate, this`numberOfFrames
      modifies this`clip, this`currFrameArray, this`frameNum, this`take
      ensures State() == LoadTake(Config(), old(State()), index)
      ensures currFrameArray == frameArrays[index]
    {
      ghost var target := LoadTake(Config(), State(), index);
      sequenceIndex := index;
      var current := sequences[sequenceIndex];
      videoSoundStartIndex := AudioStart(current.startIndex, current.frameRate, soundSampleFrequency);
      frameRate := current.frameRate;
      numberOfFrames := current.numberOfFrames;
      if hasAudioSource && current.audioTrack.Some? {
        clip := current.audioTrack;
      }
      currFrameArray := frameArrays[sequenceIndex];
      frameNum := 0;
      take := index;
      assert sequenceIndex == target.sequenceIndex && take == target.take && frameNum == target.frameNum;
      assert videoSoundStartIndex == target.videoSoundStartIndex && frameRate == target.frameRate;
      assert numberOfFrames == target.numberOfFrames && clip == target.clip;
      assert timeAtStart == target.timeAtStart && nextSampleSync == target.nextSampleSync;
    }

    /** Start (lines 127-142): loads every take's frames, then take 0; with no takes it does
        nothing. */
    method Start()
      requires frameArrays == [] && nextSampleSync >= 1 && WellFormed(Config())
      modifies this
      ensures |sequences| == 0 ==> unchanged(this)
      ensures |sequences| > 0 ==> Valid() && State() == LoadTake(Config(), old(State()), 0)
      ensures forall i :: 0 <= i < |frameArrays| ==> fresh(frameArrays[i])
      ensures shownTexture == old(shownTexture) && rendererEnabled == old(rendererEnabled)
    {
      if |sequences| > 0 {
        for i := 0 to |sequences|
          invariant |frameArrays| == i
          invariant forall j :: 0 <= j < i ==>
            fresh(frameArrays[j]) && frameArrays[j][..] == CachedTake(sequences[j], resources)
          invariant State() == old(State())
          invariant shownTexture == old(shownTexture) && rendererEnabled == old(rendererEnabled)
        {
          var t := sequences[i];
          LoadImages(i, t.folderName, t.framePrefix, t.startIndex, t.numberOfFrames);
        }
        LoadTakeLoads(Config(), State(), 0);
        LoadSequence(0);
      }
    }

    /** Update (lines 144-215): one scheduling tick at time now (Time.time), with the manual
        advance key pressed or not (Input.GetKeyDown(KeyCode.A)) and the audio source at sample
        timeSamples. */
    method Update(now: real, keyA: bool, timeSamples: int)
      requires Valid() && timeAtStart <= now
      modifies this`timeAtStart, this`seekTarget, this`audioRestarts, this`nextSampleSync
      modifies this`frameNum, this`shownTexture, this`sequenceIndex, this`playMesh
      modifies this`videoSoundStartIndex, this`frameRate, this`numberOfFrames, this`clip
      modifies this`currFrameArray, this`take
      ensures Valid()
      ensures var r := Tick(Config(), old(State()), now, keyA, timeSamples);
        State() == r.after &&
        (r.presented.Some? ==>
          shownTexture == old(currFrameArray)[r.presented.value] ==
          CachedTake(sequences[old(take)], resources)[r.presented.value]) &&
        (r.presented.None? ==> shownTexture == old(shownTexture))
    {
      ghost var before := State();
      ghost var frames := currFrameArray;
      if playMesh || keyA {
        var audioPosition := RestartAtFirstFrame(now, timeSamples);
        ghost var started := State();
        ShowClockFrame(now);
        if frameNum >= numberOfFrames || keyA {
          EndOfTakeIgnoresFrame(Config(), started, frameNum);
          FinishTake();
        } else {
          // the source returns from the end-of-take branch; the synchroniser runs otherwise
          SyncToAudio(now, audioPosition);
        }
      }
    }

    /** Lines 148-160 of Update: on frame 0 the clock origin becomes now and an attached audio
        source is stopped, seeked to the take's audio start and played. Returns the position the
        synchroniser will read. */
    method RestartAtFirstFrame(now: real, timeSamples: int) returns (audioPosition: int)
      requires Valid()
      modifies this`timeAtStart, this`seekTarget, this`audioRestarts, this`nextSampleSync
      ensures Valid() && State() == Restart(Config(), old(State()), now)
      ensures audioPosition == AudioPosition(Config(), old(State()), timeSamples)
    {
      RestartResets(Config(), State(), now);
      audioPosition := timeSamples;
      if frameNum == 0 {
        timeAtStart := now;
      }
      if frameNum == 0 && hasAudioSource {
        // Stop, seek to the take's start, Play
        seekTarget := videoSoundStartIndex;
        audioPosition := videoSoundStartIndex;
        audioRestarts := audioRestarts + 1;
        nextSampleSync := 1;
      }
    }

    /** Lines 163-172 of Update: puts the frame the clock selects, clamped to the last frame,
        on the mesh and moves the frame number one past it. */
    method ShowClockFrame(now: real)
      requires Valid() && timeAtStart <= now
      modifies this`frameNum, this`shownTexture
      ensures Valid() && State() == ShowFrame(old(State()), now)
      ensures shownTexture == currFrameArray[frameNum - 1]
    {
      ShowFrameClamps(Config(), State(), now);
      // (int)(timeDiff * frameRate) with timeDiff = Time.time - timeAtStart
      var frameToShow := FrameAt(timeAtStart, now, frameRate);
      frameNum := frameToShow;
      frameNum := Min(frameNum, numberOfFrames - 1);
      shownTexture := currFrameArray[frameNum];
      frameNum := frameNum + 1;
    }

    /** The end-of-take branch of Update (lines 177-196): shows the last frame, steps
        sequenceIndex and loads the next take, or freezes past the last one, and stops playing
        unless play is continuous. */
    method FinishTake()
      requires Valid()
      modifies this`frameNum, this`shownTexture, this`sequenceIndex, this`playMesh
      modifies this`videoSoundStartIndex, this`frameRate, this`numberOfFrames, this`clip
      modifies this`currFrameArray, this`take
      ensures Valid() && State() == EndOfTake(Config(), old(State()))
      ensures shownTexture == old(currFrameArray)[old(numberOfFrames) - 1]
    {
      CueNextTake();
      if !continuousPlay {
        playMesh := false;
      }
    }

    /** Lines 179-190 of Update. */
    method CueNextTake()
      requires Valid()
      modifies this`frameNum, this`shownTexture, this`sequenceIndex
      modifies this`videoSoundStartIndex, this`frameRate, this`numberOfFrames, this`clip
      modifies this`currFrameArray, this`take
      ensures Valid() && State() == CueNext(Config(), old(State()))
      ensures shownTexture == old(currFrameArray)[old(numberOfFrames) - 1]
    {
      ghost var cfg := Config();
      ghost var s := State();
      ghost var target := CueNext(cfg, s);
      frameNum := numberOfFrames - 1;
      shownTexture := currFrameArray[frameNum];
      sequenceIndex := sequenceIndex + 1;
      ghost var frozen := State();
      assert frozen == s.(frameNum := s.numberOfFrames - 1, sequenceIndex := s.sequenceIndex + 1);
      if sequenceIndex < |sequences| || loopSequence {
        LoadTakeLoads(cfg, frozen, sequenceIndex % |sequences|);
        LoadSequence(sequenceIndex % |sequences|);
        frameNum := 0;
        assert State() == LoadTake(cfg, frozen, frozen.sequenceIndex % |sequences|);
      }
      assert State() == target;
    }

    /** The audio-video synchroniser of Update (lines 199-213), reading the audio source at
        sample audioPosition. */
    method SyncToAudio(now: real, audioPosition: int)
      requires Valid() && timeAtStart <= now
      modifies this`frameNum, this`timeAtStart, this`nextSampleSync
      ensures Valid() && State() == SyncCheck(Config(), old(State()), now, audioPosition)
    {
      SyncCheckCorrects(Config(), State(), now, audioPosition);
      if frameNum != 0 && hasAudioSource &&
         audioPosition > videoSoundStartIndex + nextSampleSync * sampleSyncFrequency {
        if frameNum + 1 < nextSampleSync * sampleSyncFrames {
          frameNum := nextSampleSync * sampleSyncFrames + frameCompensation;
          timeAtStart := Rebased(now, frameNum, frameRate);
          if frameNum > numberOfFrames {
            frameNum := 0;
          }
        }
        nextSampleSync := nextSampleSync + 1;
      }
    }
  }
}

=== FILE: takes.dfy ===
/** Takes as configured in the inspector, and the frame cache LoadImages builds for them. */
module Takes {
  import opened FrameNames

  datatype Option<T> = None | Some(value: T)

  /** An image handle as Resources.Load returns it: null, or the texture loaded from the
      named resource. An unfilled array slot holds null too. */
  datatype Texture = NoTexture | Loaded(resource: string)

  /** One take (the FramesFolder struct, RunFrames.cs lines 10-19). Audio clips are
      identified by a number; None stands for a take without a clip. */
  datatype Take = Take(
    folderName: string,
    framePrefix: string,
    startIndex: int,
    numberOfFrames: int,
    frameRate: int,
    audioTrack: Option<nat>)

  /** Resources.Load: the asset store resolves exactly the names in resources;
      any other name yields null, which playback tolerates. */
  function Load(resources: set<string>, name: string): Texture
  {
    if name in resources then Loaded(name) else NoTexture
  }

  /** The array LoadImages builds for one take (RunFrames.cs lines 74-107): numberOfFrames + 2
      slots, slot j for j <= numberOfFrames holding the frame numbered startIndex + j, the
      last slot left null. */
  function CacheFill(folderName: string, framePrefix: string, startIndex: int, numberOfFrames: int,
                     resources: set<string>): seq<Texture>
    requires numberOfFrames + 2 >= 0
  {
    seq(numberOfFrames + 2, j =>
      if j <= numberOfFrames then Load(resources, FrameName(folderName, framePrefix, startIndex + j))
      else NoTexture)
  }

  /** The cache contents of a configured take. */
  function CachedTake(t: Take, resources: set<string>): seq<Texture>
    requires t.numberOfFrames + 2 >= 0
  {
    CacheFill(t.folderName, t.framePrefix, t.startIndex, t.numberOfFrames, resources)
  }

  /** What the cache of a take holds, for frame numbers in the five-digit range: slot j of the
      first numberOfFrames slots is the resource whose name is the folder, the prefix ("save."
      when empty) and a five-digit index that reads back as startIndex + j; distinct slots name
      distinct resources; the final slot is never filled. */
  lemma CacheLayout(t: Take, resources: set<string>, j: int, k: int)
    requires t.numberOfFrames >= 0 && 0 <= t.startIndex && t.startIndex + t.numberOfFrames <= 100000
    requires 0 <= j < t.numberOfFrames && 0 <= k < t.numberOfFrames
    ensures var c := CachedTake(t, resources);
      var index := PadIndex(t.startIndex + j);
      |c| == t.numberOfFrames + 2 && c[t.numberOfFrames + 1] == NoTexture &&
      c[j] == Load(resources, t.folderName + EffectivePrefix(t.framePrefix) + index) &&
      |index| == 5 && IsDigits(index) && Value(index) == t.startIndex + j &&
      (j != k ==> FrameName(t.folderName, t.framePrefix, t.startIndex + j)
                  != FrameName(t.folderName, t.framePrefix, t.startIndex + k))
  {
    var c := CachedTake(t, resources);
    PadIndexFiveDigits(t.startIndex + j);
    assert c[j] == Load(resources, FrameName(t.folderName, t.framePrefix, t.startIndex + j));
    if j != k && FrameName(t.folderName, t.framePrefix, t.startIndex + j)
                 == FrameName(t.folderName, t.framePrefix, t.startIndex + k) {
      FrameNameInjective(t.folderName, t.framePrefix, t.startIndex + j, t.startIndex + k);
    }
  }
}

=== FILE: timing.dfy ===
/** Time and sample arithmetic of the scheduler: the C# float-to-int cast, the clock that maps
    elapsed time to a frame index, and the sample offset at which a take's audio starts.
    C# floats are modelled by exact reals. */
module Timing {

  /** The C# cast (int)x: truncation toward zero. */
  function Trunc(x: real): (r: int)
    ensures 0.0 <= x ==> 0 <= r && r as real <= x < r as real + 1.0
    ensures x < 0.0 ==> r <= 0 && r as real - 1.0 < x <= r as real
  {
    if x >= 0.0 then x.Floor else -((-x).Floor)
  }

  /** The frame index reached after now - origin seconds at rate frames per second,
      (int)(timeDiff * frameRate) (RunFrames.cs lines 163-164). It depends on elapsed time
      only, never on how many ticks happened in between. */
  function FrameAt(origin: real, now: real, rate: int): (f: int)
    ensures origin <= now && 0 <= rate ==>
      0 <= f && f as real <= (now - origin) * rate as real < f as real + 1.0
  {
    ProductNonNegative(now - origin, rate as real);
    Trunc((now - origin) * rate as real)
  }

  lemma ProductNonNegative(x: real, y: real)
    ensures 0.0 <= x && 0.0 <= y ==> 0.0 <= x * y
  {
  }

  /** The clock origin that makes the clock read frame f at time now,
      Time.time - ((float)frameNum / frameRate) (line 206). */
  function Rebased(now: real, f: int, rate: int): real
    requires rate != 0
  {
    now - f as real / rate as real
  }

  /** The frame index never goes back while time goes forward. */
  lemma FrameAtMonotone(origin: real, t1: real, t2: real, rate: int)
    requires origin <= t1 <= t2 && 0 <= rate
    ensures FrameAt(origin, t1, rate) <= FrameAt(origin, t2, rate)
  {
    var x1 := (t1 - origin) * rate as real;
    var x2 := (t2 - origin) * rate as real;
    assert x2 - x1 == (t2 - t1) * rate as real;
    assert x1 <= x2;
  }

  /** Moving the origin back by f / rate seconds, as the drift correction does, makes the
      clock read exactly f more frames from then on: at the instant of the correction it reads
      f, the forced frame index. */
  lemma RebasedClockAgrees(now: real, later: real, f: int, rate: int)
    requires 0 < rate && 0 <= f && now <= later
    ensures FrameAt(Rebased(now, f, rate), later, rate) == f + FrameAt(now, later, rate)
  {
    var g := FrameAt(now, later, rate);
    var x := (later - now) * rate as real;
    assert g as real <= x < g as real + 1.0;
    RebasedProduct(now, later, f, rate);
    assert (later - Rebased(now, f, rate)) * rate as real == x + f as real;
  }

  /** The elapsed time since the rebased origin, in frames, is f more than since now. */
  lemma RebasedProduct(now: real, later: real, f: int, rate: int)
    requires 0 < rate
    ensures (later - Rebased(now, f, rate)) * rate as real == (later - now) * rate as real + f as real
  {
    var r := rate as real;
    var q := f as real / r;
    assert q * r == f as real;
    assert (later - (now - q)) * r == (later - now) * r + q * r;
  }

  /** The sample at which a take's clip starts: the time of its first frame, startIndex - 1
      frames in, in samples (RunFrames.cs line 116). */
  function AudioStart(startIndex: int, frameRate: int, soundSampleFrequency: int): int
    requires frameRate != 0
  {
    Trunc((startIndex - 1) as real / frameRate as real * soundSampleFrequency as real)
  }

  /** For a start index of at least 1 and a non-negative sample rate the float computation is
      the integer quotient ((startIndex - 1) * soundSampleFrequency) / frameRate. */
  lemma AudioStartExact(startIndex: int, frameRate: int, soundSampleFrequency: int)
    requires 1 <= startIndex && 0 < frameRate && 0 <= soundSampleFrequency
    ensures AudioStart(startIndex, frameRate, soundSampleFrequency)
            == ((startIndex - 1) * soundSampleFrequency) / frameRate >= 0
  {
    var a := (startIndex - 1) * soundSampleFrequency;
    var q := a / frameRate;
    var m := a % frameRate;
    var r := frameRate as real;
    assert a == q * frameRate + m && 0 <= m < frameRate;
    var x := (startIndex - 1) as real / r * soundSampleFrequency as real;
    assert x == a as real / r;
    assert a as real / r == q as real + m as real / r;
    assert 0.0 <= m as real / r < 1.0;
    assert q >= 0;
  }
}
